=== FILE: README.md ===
# Bike-rental backend: record rules and request handlers

This project models the core of a small bike-rental REST backend in Dafny.
The backend keeps three collections in a document database: users, bikes and
bookings. A fourth schema, for reviews, is defined but no handler uses it.

The model has two layers.

- **Record rules.** Each schema is a pure function
  `Validate(raw) -> Result<Record, Errors>`. It works the way the document
  mapper does. First the document is built: lowercase setters run and
  defaults fill absent fields. Then every path runs its validators in
  order, and the first one that fails is reported for that path.
  - For a string path, `required` fails on an absent value and on the
    empty string.
  - For a number, date or object-id path, only an absent value fails it.
  - A default applies only to an absent value.
- **Handlers.** The handlers work over an immutable `Store` value: three
  sequences of documents in insertion order, plus an object-id counter.
  Lookups and queries are taken to see documents in that order.
  These handlers are modelled:
  - signup;
  - login;
  - booking creation, which inserts the bike if it is absent;
  - the bookings listing;
  - the reply of the booking status update.

  Password hashing and token signing and verification are opaque functions
  passed in as a `Crypto` value.
  - A handler that throws outside any `try`, or inside the token
    callback, is modelled as sending no reply and leaving the store
    unchanged. Its reply is a constructor (`HashThrew`, `ListThrew`,
    `BookingThrew`) whose `Status()` is `None`. What the server really
    does then depends on the Express and Node versions; see "Left out".
  - Queries on a lowercase path lower-case the queried value, as the
    mapper's setters do when it casts a query. So login and the
    token-user lookup match `Lower(email)`, and the bike lookup matches
    `Lower(bikeId)`.

Files: `common.dfy` holds options, results, violations and ASCII
lower-casing. `seqs.dfy` holds first/last/filter searches. `email.dfy` holds
the address pattern. `users.dfy`, `bikes.dfy`, `bookings.dfy` and
`reviews.dfy` hold the schemas. `store.dfy` holds the collections, lookups
and the store invariant. `api.dfy` holds the handlers.

Some behaviour follows from the code and is worth stating.

- The e-mail pattern is modelled twice. `Email.MatchesPattern` states the
  regular expression's meaning as the existence of a split.
  `Email.IsEmail` is a check with no backtracking: the first `@`, then
  the last `.` of the domain. They are proved to agree.
- Every matching address has at least six characters, so the
  five-character minimum on e-mails never decides acceptance. It only
  decides which error a one- to four-character e-mail reports: the
  minimum runs before the pattern.
- Signup hashes the password before it builds the document. So the
  eight-character minimum is checked on the hash, not on the plaintext
  (`Api.SignupChecksHashLength`).
- The ID number has no format rule: its eight-digit pattern is commented
  out.
- In booking creation, a failed bike save sends a 400 and the handler runs
  on. But the booking needs the same four request fields that the bike
  needs. So a bike that fails validation also means a booking that fails
  validation, and nothing is stored (`Api.BikeFailureStoresNothing`).
- Booking documents store `bikeId` exactly as sent. The bike document
  stores it lower-cased.

## Model

| member | source | states |
|---|---|---|
| Email.IsEmailCorrect | models/userSchema.js:26-29 | the deterministic address check accepts a string exactly when the pattern matches it: a non-empty local part over `[a-zA-Z0-9._%+-]`, one `@`, a non-empty domain over `[a-zA-Z0-9.-]`, a `.`, and at least two ASCII letters |
| Email.PatternImpliesLength | models/userSchema.js:25-28 | every address the pattern matches has at least six characters, so the minimum length of 5 never rejects an address the pattern accepts |
| Email.LowerKeepsMatch | models/userSchema.js:23-28 | lower-casing a matching address keeps it matching, so a stored e-mail still passes its own validator |
| Common.LowerChar | models/userSchema.js:8 | an ASCII upper-case letter becomes the lower-case letter at the same alphabet position; every other character is kept |
| Common.Lower | models/userSchema.js:8 | a lowercase path stores a string of the same length with no ASCII upper-case letter, each letter mapped to its lower case and every other character kept |
| Users.Validate | models/userSchema.js:4-66 | a user is accepted exactly when username, first and last name and ID number are non-empty, the lower-cased e-mail matches the pattern, the password has at least 8 characters and the phone is exactly 10 ASCII digits; the stored user has the name and e-mail fields lower-cased, password, phone and ID number unchanged, the picture defaulting to the placeholder URL and the owner flag to false |
| Users.CleanMeans | models/userSchema.js:5-57 | the error record of a built document is clean, with every path passing, exactly when the raw fields meet the schema's rules (required fields, e-mail pattern, password length, phone digits) |
| Users.WhyRejected | models/userSchema.js:5-57 | a rejected user reports exactly the paths whose rule fails, each with its first failing validator: required for every absent or empty required field, the minimum length for a non-empty e-mail under 5 or password under 8 characters, a format error for a phone that is not 10 digits and for an e-mail of 5 or more characters that does not match the pattern |
| Users.Defaults | models/userSchema.js:58-65 | a user built without a picture stores `https://via.placeholder.com/150`, and one built without an owner flag stores false |
| Users.RevalidateStored | models/userSchema.js:5-65 | a request that meets the schema's rules is accepted, and validating the stored user again accepts it and yields the same user, so normalisation and defaults are idempotent |
| Bikes.Validate | models/bikeSchema.js:4-25 | a bike is accepted exactly when identifier, owner, type and location are non-empty; identifier, type and location are stored lower-cased, the owner as given; a rejection names exactly the missing paths |
| Bikes.RevalidateStored | models/bikeSchema.js:5-23 | normalising and validating a stored bike again changes nothing |
| Bookings.Validate | models/bookingSchema.js:5-46 | a booking is accepted exactly when user, bike id, owner, type, location, price, start and end time are present and a given status is one of pending, approved, rejected; an absent status is stored as pending; start and end time are not compared and the bike id is a free string; a rejection names exactly the missing paths, each as required, and a status outside the enum |
| Bookings.RevalidateStored | models/bookingSchema.js:41-45 | a stored booking, with its status written back as its enum string, validates to itself |
| Reviews.Validate | models/reviewSchema.js:4-25 | a review is accepted exactly when user, bike and a non-empty comment are present and the rating lies in [1, 5]; a rating below 1 is reported as below the minimum, one above 5 as above the maximum, and every missing path as required |
| Reviews.BoundsAccepted | models/reviewSchema.js:15-20 | ratings of exactly 1 and exactly 5 are accepted |
| Reviews.RevalidateStored | models/reviewSchema.js:4-25 | validating a stored review again accepts it and yields the same review |
| Store.FindUser | index.js:84-85 | the user lookup returns the first stored user with the e-mail, or nothing exactly when no user has it |
| Store.FoundUserIsUnique | models/userSchema.js:24 | under the unique e-mail index, the user found by e-mail is the only user with that e-mail |
| Store.FindBike | index.js:174 | the bike lookup returns the first stored bike with the identifier, or nothing exactly when no bike has it |
| Store.FindBooking | index.js:126-128 | the lookup by object id returns the first booking with that id, or nothing exactly when no booking has it |
| Store.BookingsOf | index.js:152 | the booking query returns each stored booking whose user is the given id exactly as often as it is stored, and no other document |
| Seqs.FilterAppend | index.js:152 | the query keeps stored order: filtering a concatenation concatenates the filtered parts |
| Store.BookingsOfAppend | index.js:152 | a newly appended booking comes last in its owner's result, after that owner's earlier bookings, and changes no other user's result |
| Api.Signup | index.js:48-80 | signup creates a user exactly when a password is given, the request with its password replaced by the hash validates and no stored user has the lower-cased e-mail; the stored password is the hash; a request that fails validation reports the validation errors even when its e-mail is taken, and the duplicate-e-mail error only for a valid request; a missing password sends nothing; every failure leaves the store unchanged |
| Api.SignupKeepsWf | models/userSchema.js:24 | signup keeps the store invariant: no two users share an e-mail and ids stay distinct and issued |
| Api.SignupChecksHashLength | index.js:60-75 | when the hash has at least 8 characters, signup never rejects the password path, whatever the plaintext's length |
| Api.Login | index.js:82-115 | login answers 404 exactly when no user has the lower-cased e-mail, whatever the password; otherwise 401 exactly when the password does not match the stored hash, and 200 with a token signed for 86400 seconds over that user's id, e-mail, phone, ID number and owner flag |
| Api.SignupThenLogin | index.js:48-110 | after a successful signup, logging in with the same e-mail and password returns a token for the new user, provided the hash library accepts a password against its own hash |
| Api.Authenticate | index.js:142-150 | an empty token is refused with 403, a token the library does not verify with 401, and a verified token yields its claims |
| Api.TokenUser | index.js:147-151 | a token names a stored user exactly when it is non-empty, verifies, and some user has its lower-cased e-mail; the user named is the first one with that e-mail |
| Api.ListBookings | index.js:141-157 | the listing replies 403 and 401 as the token guard says, and otherwise, when the token's e-mail names a user, each booking whose user is that user's id, as often as it is stored, and nothing else |
| Api.EnsureBike | index.js:173-190 | the bike step leaves the store alone when a bike with the lower-cased identifier exists, inserts exactly the validated bike when none does, and reports failure without change when the bike does not validate |
| Api.Book | index.js:197-226 | the booking step creates a booking exactly when the token verifies, names a stored user and the booking validates; the stored booking is the validated document built from the request for that user: its user is that user's id, its bike id, owner, type, location, price and times are the request's, and its status is pending |
| Api.CreateBooking | index.js:161-228 | booking creation adds exactly one bike, built from the request's id, owner, type and location, when no bike has that identifier and the bike validates, and otherwise leaves the bikes unchanged; it creates a booking exactly when the token names a stored user and the booking built from the request validates, and that booking is the validated document, owned by the token's user, appended to the bookings; after a bike step that got through it answers 403 exactly for an empty token and 401 exactly for one that does not verify; users are never changed |
| Api.EnsureBikeKeepsWf | index.js:174-184 | the bike step keeps bike identifiers unique, in the sequential model |
| Api.CreateBookingKeepsWf | index.js:161-228 | booking creation keeps the store invariant |
| Api.FirstBookingOfNewBike | index.js:174-223 | booking an unseen bike with a complete request and a stored user's token creates exactly one bike and one booking, and the booking belongs to that user |
| Api.BikeFailureStoresNothing | index.js:188-222 | when the bike save fails, the store ends unchanged although the handler runs on past its catch |
| Api.CreatedBookingIsListed | index.js:151-210 | a booking just created appears in the listing under the same token, as the last entry after the listing as it was before |
| Api.UpdateStatus | index.js:126-129 | the status update answers 404 exactly when no booking has the id, and otherwise returns the booking as it was |

## Left out

- Express setup, routing, CORS, body parsing, configuration, the database connection, logging and `listen`: these are I/O plumbing.
- The `/` and `/api/userdata` routes: they are outside the modelled handlers.
- bcrypt and the token library: they are the uninterpreted `Crypto` functions. The model has no salts, work factor or expiry arithmetic. Hashing is deterministic in the model.
- Parsing the `authorization` header (`split(' ')[0]`): handlers take the extracted token string. An absent header, which throws, is not modelled.
- The asynchronous callback flow and the check-then-insert race on bikes: this is concurrency. `Api.EnsureBikeKeepsWf` holds only for requests handled one at a time.
- Thrown errors with no catch (a signup without a password, where `hashSync` throws at index.js:60; an unknown token user or a booking that fails validation inside the token callback): the model records only "no reply, store unchanged". The real outcome depends on versions the source does not pin. Under Express 4 on Node 15 or later the unhandled rejection ends the server process. Under Express 5 a throw in the handler itself is answered with 500, while one inside the token callback is still an unhandled rejection.
- Api.CreatedBookingIsListed, Store.BookingsOfAppend, Seqs.FilterAppend: results of `find` and `findOne` without a sort are modelled in insertion order. The database does not promise that order, so "comes last" and "first match" hold for the modelled order only; membership and multiplicity do not depend on it.
- Api.CreateBooking: the second reply that Express refuses after a 400 is not modelled. The model reports the first reply.
- Api.UpdateStatus: the store change made by the replace is not modelled, only the reply. The replacement document is `{ status }`, and its further semantics are not specified here. An id that is not a well-formed object id is also not modelled.
- `customerEmail` on bookings is not a schema path and is dropped. The unused review import is not modelled.
- Timestamps: they come from the wall clock.
- JavaScript numbers and dates: price and times are `int`, the rating is `real`. Validation only checks presence and compares. Type casting of request values is not modelled.
- Lowercasing covers only ASCII letters. Lengths count characters, not UTF-16 code units.
- A missing `bikeId` in a booking request, and a missing e-mail in a login request: these would put `undefined` into a query filter, which is not modelled. Both are taken to be strings.
- Object ids come from a counter in the store, not from the mapper's generator.
- The modelled handlers include no ID-document check. Signup only copies the `idPic` string.

=== FILE: api.dfy ===
/** The request handlers: signup, login, booking creation, the bookings
    listing and the booking status update, each a function from the store
    and the request to the reply and the new store. Password hashing and
    token signing are opaque functions handed in as a `Crypto` value. */
module Api {
  import opened Common
  import opened Store
  import Users
  import Bikes
  import Bookings

  /** The claims a login token carries. */
  datatype Claims = Claims(id: nat, email: string, phone: string, idNo: string, isOwner: bool)

  /** The password-hashing and token library, left uninterpreted: `hash`
      turns a password into its stored form, `matches` compares a plaintext
      password with a stored hash, `sign` issues a token for claims with a
      lifetime in seconds, `verify` decodes a token or refuses it. */
  datatype Crypto = Crypto(
    hash: string -> string,
    matches: (string, string) -> bool,
    sign: (Claims, nat) -> string,
    verify: string -> Option<Claims>)

  /** Token lifetime: 24 hours. */
  const TokenLifetime: nat := 86400

  /** A handler's reply together with the store it leaves behind. */
  datatype Handled<R> = Handled(reply: R, store: Store)

  // ---------------------------------------------------------------- signup

  datatype SignupError = Invalid(errors: Users.UserErrors) | DuplicateEmail

  datatype SignupReply =
    | UserCreated(user: Doc<Users.User>)
    | SignupFailed(error: SignupError)
    | HashThrew   // no password: hashing throws before the handler's try block; modelled as no reply
  {
    function Status(): Option<int> {
      match this
      case UserCreated(_) => Some(200)
      case SignupFailed(_) => Some(400)
      case HashThrew => None
    }
  }

  /** The document signup saves: the request's fields, with the password
      replaced by its hash. */
  function WithHashedPassword(c: Crypto, req: Users.RawUser): Users.RawUser
    requires req.password.Some?
  {
    req.(password := Some(c.hash(req.password.value)))
  }

  predicate EmailTaken(st: Store, email: string) {
    exists i :: 0 <= i < |st.users| && st.users[i].body.email == email
  }

  /** `POST /api/signup`. The password is hashed first, so the schema's
      eight-character minimum applies to the hash. The document is then
      validated, and the unique index refuses a second user with the same
      (lower-cased) e-mail. Only a created user changes the store. */
  function Signup(st: Store, c: Crypto, req: Users.RawUser): (r: Handled<SignupReply>)
    ensures r.reply.HashThrew? <==> req.password.None?
    ensures r.reply.UserCreated? <==>
      && req.password.Some?
      && Users.Validate(WithHashedPassword(c, req)).Success?
      && !EmailTaken(st, Lower(req.email.value))
    ensures r.reply.SignupFailed? ==> (r.reply.error.Invalid? <==> Users.Validate(WithHashedPassword(c, req)).Failure?)
    ensures r.reply.SignupFailed? && r.reply.error.Invalid? ==>
      Users.Validate(WithHashedPassword(c, req)) == Failure(r.reply.error.errors)
    ensures r.reply.SignupFailed? && r.reply.error.DuplicateEmail? ==>
      req.email.Some? && EmailTaken(st, Lower(req.email.value))
    ensures r.reply.UserCreated? ==>
      && Users.Validate(WithHashedPassword(c, req)) == Success(r.reply.user.body)
      && r.reply.user.body.password == c.hash(req.password.value)
      && r.reply.user.id == st.nextId
      && r.store == st.(users := st.users + [r.reply.user], nextId := st.nextId + 1)
    ensures !r.reply.UserCreated? ==> r.store == st
  {
    if req.password.None? then Handled(HashThrew, st)
    else
      match Users.Validate(WithHashedPassword(c, req))
      case Failure(errs) => Handled(SignupFailed(Invalid(errs)), st)
      case Success(u) =>
        if FindUser(st.users, u.email).Some? then Handled(SignupFailed(DuplicateEmail), st)
        else
          var d := Doc(st.nextId, u);
          Handled(UserCreated(d), st.(users := st.users + [d], nextId := st.nextId + 1))
  }

  /** Signup keeps the store's invariant; in particular no two stored users
      ever share an e-mail. */
  lemma SignupKeepsWf(st: Store, c: Crypto, req: Users.RawUser)
    requires Wf(st)
    ensures Wf(Signup(st, c, req).store)
  {
    var r := Signup(st, c, req);
    if r.reply.UserCreated? {
      AddUserKeepsWf(st, r.reply.user);
    }
  }

  /** The eight-character rule never sees the plaintext: whenever the hash
      is long enough, even an empty password passes the password path. */
  lemma SignupChecksHashLength(st: Store, c: Crypto, req: Users.RawUser)
    requires req.password.Some? && |c.hash(req.password.value)| >= Users.PasswordMinLength
    ensures !Signup(st, c, req).reply.HashThrew?
    ensures Signup(st, c, req).reply.SignupFailed? && Signup(st, c, req).reply.error.Invalid? ==>
      Signup(st, c, req).reply.error.errors.password.None?
  {
    var doc := WithHashedPassword(c, req);
    if Users.Validate(doc).Failure? {
      Users.WhyRejected(doc);
    }
  }

  // ----------------------------------------------------------------- login

  datatype LoginReply =
    | UnknownEmail
    | WrongPassword
    | LoggedIn(token: string)
    | LoginThrew    // no password in the body: the comparison throws, the handler's catch answers
  {
    function Status(): int {
      match this
      case UnknownEmail => 404
      case WrongPassword => 401
      case LoggedIn(_) => 200
      case LoginThrew => 400
    }
  }

  /** The claims issued for a stored user. */
  function ClaimsOf(d: Doc<Users.User>): Claims {
    Claims(d.id, d.body.email, d.body.phone, d.body.idNumber, d.body.isOwner)
  }

  /** `POST /api/login`. The e-mail is looked up first (the query lower-cases
      it, as the path's setter does), so an unknown e-mail is a 404 whatever
      the password; a known one is a 401 unless the password matches the
      stored hash, and a 200 with a 24-hour token for that user otherwise. */
  function Login(st: Store, c: Crypto, email: string, password: Option<string>): (r: LoginReply)
    ensures r.UnknownEmail? <==> !EmailTaken(st, Lower(email))
    ensures r.LoginThrew? <==> EmailTaken(st, Lower(email)) && password.None?
    ensures !r.UnknownEmail? ==>
      var k := FindUser(st.users, Lower(email)).value;
      && (r.WrongPassword? <==> password.Some? && !c.matches(password.value, st.users[k].body.password))
      && (r.LoggedIn? ==> password.Some? && c.matches(password.value, st.users[k].body.password)
                          && r.token == c.sign(ClaimsOf(st.users[k]), TokenLifetime))
  {
    match FindUser(st.users, Lower(email))
    case None => UnknownEmail
    case Some(k) =>
      if password.None? then LoginThrew
      else if !c.matches(password.value, st.users[k].body.password) then WrongPassword
      else LoggedIn(c.sign(ClaimsOf(st.users[k]), TokenLifetime))
  }

  /** Signing up and then logging in with the same e-mail (in any case) and
      password yields a token for the new user, provided the hash library
      accepts a password against its own hash. */
  lemma SignupThenLogin(st: Store, c: Crypto, req: Users.RawUser)
    requires Wf(st)
    requires req.password.Some? && c.matches(req.password.value, c.hash(req.password.value))
    requires Users.Accepts(WithHashedPassword(c, req))
    requires !EmailTaken(st, Lower(req.email.value))
    ensures Login(Signup(st, c, req).store, c, req.email.value, req.password) ==
      LoggedIn(c.sign(ClaimsOf(Signup(st, c, req).reply.user), TokenLifetime))
  {
    Users.EmailAccepted(WithHashedPassword(c, req).email);
    var r := Signup(st, c, req);
    SignupKeepsWf(st, c, req);
    var d := r.reply.user;
    assert r.store.users[|st.users|] == d;
    FoundUserIsUnique(r.store.users, Lower(req.email.value), |st.users|);
  }

  // ------------------------------------------------------- token guard

  datatype Auth = NoToken | BadToken | Authenticated(claims: Claims)

  /** The guard of the token-protected handlers: an empty token is refused
      with 403, one the library does not verify with 401. */
  function Authenticate(c: Crypto, token: string): (r: Auth)
    ensures r.NoToken? <==> token == ""
    ensures r.BadToken? <==> token != "" && c.verify(token).None?
    ensures r.Authenticated? ==> c.verify(token) == Some(r.claims)
  {
    if token == "" then NoToken
    else match c.verify(token)
      case None => BadToken
      case Some(claims) => Authenticated(claims)
  }

  /** The stored user a verified token names: the first user whose e-mail is
      the token's e-mail (lower-cased by the query). */
  function TokenUser(st: Store, c: Crypto, token: string): (r: Option<nat>)
    ensures r.Some? <==> token != "" && c.verify(token).Some? && EmailTaken(st, Lower(c.verify(token).value.email))
    ensures r.Some? ==>
      && r.value < |st.users|
      && st.users[r.value].body.email == Lower(c.verify(token).value.email)
      && forall j :: 0 <= j < r.value ==> st.users[j].body.email != st.users[r.value].body.email
  {
    match Authenticate(c, token)
    case Authenticated(claims) => FindUser(st.users, Lower(claims.email))
    case _ => None
  }

  // ------------------------------------------------------- bookings listing

  datatype ListReply =
    | ListNoToken
    | ListUnauthorized
    | ListThrew     // the token's e-mail names no user: reading its id throws; modelled as no reply
    | Listed(bookings: seq<Doc<Bookings.Booking>>)
  {
    function Status(): Option<int> {
      match this
      case ListNoToken => Some(403)
      case ListUnauthorized => Some(401)
      case ListThrew => None
      case Listed(_) => Some(200)
    }
  }

  /** `GET /api/bookings`: exactly the stored bookings whose user is the
      token's user. */
  function ListBookings(st: Store, c: Crypto, token: string): (r: ListReply)
    ensures r.ListNoToken? <==> token == ""
    ensures r.ListUnauthorized? <==> token != "" && c.verify(token).None?
    ensures r.Listed? <==> TokenUser(st, c, token).Some?
    ensures r.Listed? ==>
      var uid := st.users[TokenUser(st, c, token).value].id;
      && (forall b :: b in r.bookings <==> b in st.bookings && b.body.user == uid)
      && (forall b :: multiset(r.bookings)[b] == if b.body.user == uid then multiset(st.bookings)[b] else 0)
  {
    match Authenticate(c, token)
    case NoToken => ListNoToken
    case BadToken => ListUnauthorized
    case Authenticated(claims) =>
      match FindUser(st.users, Lower(claims.email))
      case None => ListThrew
      case Some(k) => Listed(BookingsOf(st.bookings, st.users[k].id))
  }

  // ------------------------------------------------------- booking creation

  /** The body of `POST /api/booking`. The bike identifier is taken to be a
      string; the price arrives as `finalPrice`. */
  datatype BookingRequest = BookingRequest(
    bikeId: string,
    bikeOwner: Option<string>,
    bikeType: Option<string>,
    bikeLocation: Option<string>,
    finalPrice: Option<int>,
    startTime: Option<int>,
    endTime: Option<int>)

  /** The bike document built from a booking request. */
  function RequestedBike(req: BookingRequest): Bikes.RawBike {
    Bikes.RawBike(Some(req.bikeId), req.bikeOwner, req.bikeType, req.bikeLocation)
  }

  /** The bike step: look the bike up by its (lower-cased) identifier and
      insert it if absent. The reply says whether the step got through
      without an error. */
  function EnsureBike(st: Store, req: BookingRequest): (r: Handled<bool>)
    ensures r.store.users == st.users && r.store.bookings == st.bookings
    ensures FindBike(st.bikes, Lower(req.bikeId)).Some? ==> r == Handled(true, st)
    ensures FindBike(st.bikes, Lower(req.bikeId)).None? ==>
      match Bikes.Validate(RequestedBike(req))
      case Success(b) => r == Handled(true, st.(bikes := st.bikes + [Doc(st.nextId, b)], nextId := st.nextId + 1))
      case Failure(_) => r == Handled(false, st)
  {
    match FindBike(st.bikes, Lower(req.bikeId))
    case Some(_) => Handled(true, st)
    case None =>
      match Bikes.Validate(RequestedBike(req))
      case Failure(_) => Handled(false, st)
      case Success(b) => Handled(true, st.(bikes := st.bikes + [Doc(st.nextId, b)], nextId := st.nextId + 1))
  }

  datatype BookingReply =
    | BikeSaveFailed   // the bike step's catch answered first; the handler still runs on
    | BookingNoToken
    | BookingUnauthorized
    | BookingThrew     // unknown token user, or the booking failed validation; modelled as no reply
    | BookingCreated(booking: Doc<Bookings.Booking>)
  {
    function Status(): Option<int> {
      match this
      case BikeSaveFailed => Some(400)
      case BookingNoToken => Some(403)
      case BookingUnauthorized => Some(401)
      case BookingThrew => None
      case BookingCreated(_) => Some(200)
    }
  }

  /** The booking document built for a request on behalf of a user. The
      request's `customerEmail` is not a schema path and is dropped; no
      status is given, so the default applies. */
  function RequestedBooking(user: nat, req: BookingRequest): Bookings.RawBooking {
    Bookings.RawBooking(Some(user), Some(req.bikeId), req.bikeOwner, req.bikeType, req.bikeLocation,
                        req.finalPrice, req.startTime, req.endTime, None)
  }

  /** The booking step: authenticate, find the token's user, save the booking. */
  function Book(st: Store, c: Crypto, token: string, req: BookingRequest): (r: Handled<BookingReply>)
    ensures r.store.users == st.users && r.store.bikes == st.bikes
    ensures r.reply.BookingNoToken? <==> token == ""
    ensures r.reply.BookingUnauthorized? <==> token != "" && c.verify(token).None?
    ensures !r.reply.BikeSaveFailed?
    ensures r.reply.BookingCreated? <==>
      TokenUser(st, c, token).Some?
      && Bookings.Validate(RequestedBooking(st.users[TokenUser(st, c, token).value].id, req)).Success?
    ensures r.reply.BookingCreated? ==>
      && r.reply.booking.id == st.nextId
      && r.reply.booking.body.user == st.users[TokenUser(st, c, token).value].id
      && r.reply.booking.body.bikeId == req.bikeId
      && r.reply.booking.body.status == Bookings.Pending
      && r.store == st.(bookings := st.bookings + [r.reply.booking], nextId := st.nextId + 1)
    ensures r.reply.BookingCreated? ==>
      Bookings.Validate(RequestedBooking(st.users[TokenUser(st, c, token).value].id, req)) == Success(r.reply.booking.body)
    ensures !r.reply.BookingCreated? ==> r.store == st
  {
    match Authenticate(c, token)
    case NoToken => Handled(BookingNoToken, st)
    case BadToken => Handled(BookingUnauthorized, st)
    case Authenticated(claims) =>
      match FindUser(st.users, Lower(claims.email))
      case None => Handled(BookingThrew, st)
      case Some(k) =>
        match Bookings.Validate(RequestedBooking(st.users[k].id, req))
        case Failure(_) => Handled(BookingThrew, st)
        case Success(b) =>
          var d := Doc(st.nextId, b);
          Handled(BookingCreated(d), st.(bookings := st.bookings + [d], nextId := st.nextId + 1))
  }

  /** `POST /api/booking`: the bike step, then the booking step on whatever
      store the bike step left. When the bike step failed, its 400 is the
      reply the client sees, and the booking step still runs; see
      `BikeFailureStoresNothing` for why it then stores nothing. */
  function CreateBooking(st: Store, c: Crypto, token: string, req: BookingRequest): (r: Handled<BookingReply>)
    ensures r.store.users == st.users
    ensures
      var absent := FindBike(st.bikes, Lower(req.bikeId)).None?;
      var valid := Bikes.Validate(RequestedBike(req));
      && (absent && valid.Success? ==> r.store.bikes == st.bikes + [Doc(st.nextId, valid.value)])
      && (!(absent && valid.Success?) ==> r.store.bikes == st.bikes)
    ensures r.reply.BikeSaveFailed? <==>
      FindBike(st.bikes, Lower(req.bikeId)).None? && Bikes.Validate(RequestedBike(req)).Failure?
    ensures !r.reply.BikeSaveFailed? ==>
      && (r.reply.BookingNoToken? <==> token == "")
      && (r.reply.BookingUnauthorized? <==> token != "" && c.verify(token).None?)
    ensures r.reply.BookingCreated? <==>
      && TokenUser(st, c, token).Some?
      && Bookings.Validate(RequestedBooking(st.users[TokenUser(st, c, token).value].id, req)).Success?
    ensures r.reply.BookingCreated? ==>
      var k := TokenUser(st, c, token).value;
      && Bookings.Validate(RequestedBooking(st.users[k].id, req)) == Success(r.reply.booking.body)
      && r.reply.booking.body.user == st.users[k].id
      && r.reply.booking.body.bikeId == req.bikeId
      && r.reply.booking.body.status == Bookings.Pending
      && r.store.bookings == st.bookings + [r.reply.booking]
    ensures r.reply.BookingNoToken? || r.reply.BookingUnauthorized? || r.reply.BookingThrew? ==>
      r.store.bookings == st.bookings
  {
    var bike := EnsureBike(st, req);
    var booking := Book(bike.store, c, token, req);
    assert TokenUser(bike.store, c, token) == TokenUser(st, c, token);
    if bike.reply then booking else Handled(BikeSaveFailed, booking.store)
  }

  /** The bike step keeps the store's invariant; in particular bike
      identifiers stay unique, because a bike is inserted only when no bike
      has its lower-cased identifier, and is stored under that identifier. */
  lemma EnsureBikeKeepsWf(st: Store, req: BookingRequest)
    requires Wf(st)
    ensures Wf(EnsureBike(st, req).store)
  {
    var r := EnsureBike(st, req);
    if r.store != st {
      var b := Bikes.Validate(RequestedBike(req)).value;
      AddBikeKeepsWf(st, Doc(st.nextId, b));
    }
  }

  /** The booking step keeps the store's invariant. */
  lemma BookKeepsWf(st: Store, c: Crypto, token: string, req: BookingRequest)
    requires Wf(st)
    ensures Wf(Book(st, c, token, req).store)
  {
    var r := Book(st, c, token, req);
    if r.reply.BookingCreated? {
      AddBookingKeepsWf(st, r.reply.booking);
    }
  }

  /** Booking creation keeps the store's invariant. */
  lemma CreateBookingKeepsWf(st: Store, c: Crypto, token: string, req: BookingRequest)
    requires Wf(st)
    ensures Wf(CreateBooking(st, c, token, req).store)
  {
    EnsureBikeKeepsWf(st, req);
    BookKeepsWf(EnsureBike(st, req).store, c, token, req);
  }

  /** Booking a bike nobody has booked before, with a complete request and a
      token of a stored user, stores exactly one new bike and one new
      booking, and the booking belongs to that user. */
  lemma FirstBookingOfNewBike(st: Store, c: Crypto, token: string, req: BookingRequest, k: nat)
    requires Wf(st)
    requires FindBike(st.bikes, Lower(req.bikeId)).None?
    requires |req.bikeId| > 0 && Present(req.bikeOwner) && Present(req.bikeType) && Present(req.bikeLocation)
    requires req.finalPrice.Some? && req.startTime.Some? && req.endTime.Some?
    requires token != "" && c.verify(token).Some?
    requires k < |st.users| && st.users[k].body.email == Lower(c.verify(token).value.email)
    ensures var r := CreateBooking(st, c, token, req);
      && r.reply.BookingCreated?
      && |r.store.bikes| == |st.bikes| + 1
      && |r.store.bookings| == |st.bookings| + 1
      && r.store.bikes[|st.bikes|].body.uuid == Lower(req.bikeId)
      && r.reply.booking.body.user == st.users[k].id
  {
    FoundUserIsUnique(st.users, Lower(c.verify(token).value.email), k);
    var bike := EnsureBike(st, req);
    assert bike.reply && bike.store.users == st.users;
    assert TokenUser(bike.store, c, token) == Some(k);
    assert Bookings.Validate(RequestedBooking(st.users[k].id, req)).Success?;
  }

  /** The bike step's catch does not stop the handler, but its 400 is never
      followed by a stored booking: the bike document is built from the same
      four request fields the booking requires, so a bike that fails
      validation means a booking that fails it too. */
  lemma BikeFailureStoresNothing(st: Store, c: Crypto, token: string, req: BookingRequest)
    requires CreateBooking(st, c, token, req).reply.BikeSaveFailed?
    ensures CreateBooking(st, c, token, req).store == st
  {
    assert EnsureBike(st, req) == Handled(false, st);
  }

  /** A booking just created shows up in its owner's listing under the same token. */
  lemma CreatedBookingIsListed(st: Store, c: Crypto, token: string, req: BookingRequest)
    requires CreateBooking(st, c, token, req).reply.BookingCreated?
    ensures var r := CreateBooking(st, c, token, req);
      && ListBookings(r.store, c, token).Listed?
      && r.reply.booking in ListBookings(r.store, c, token).bookings
    ensures var r := CreateBooking(st, c, token, req);
      ListBookings(r.store, c, token).bookings == ListBookings(st, c, token).bookings + [r.reply.booking]
  {
    var r := CreateBooking(st, c, token, req);
    var bike := EnsureBike(st, req);
    assert TokenUser(r.store, c, token) == TokenUser(bike.store, c, token);
    assert r.reply.booking in r.store.bookings;
    var uid := st.users[TokenUser(st, c, token).value].id;
    BookingsOfAppend(st.bookings, r.reply.booking, uid);
  }

  // ------------------------------------------------------- status update

  datatype UpdateReply = BookingNotFound | BookingReplaced(previous: Doc<Bookings.Booking>) {
    function Status(): int {
      match this
      case BookingNotFound => 404
      case BookingReplaced(_) => 200
    }
  }

  /** `PUT /api/booking/:id`, as far as the reply goes: 404 when no booking
      has the id, otherwise 200 with the booking as it was before. */
  function UpdateStatus(st: Store, id: nat): (r: UpdateReply)
    ensures r.BookingNotFound? <==> forall j :: 0 <= j < |st.bookings| ==> st.bookings[j].id != id
    ensures r.BookingReplaced? ==> r.previous in st.bookings && r.previous.id == id
  {
    match FindBooking(st.bookings, id)
    case None => BookingNotFound
    case Some(k) => BookingReplaced(st.bookings[k])
  }
}

=== FILE: bikes.dfy ===
/** The `bikes` collection's schema: four required string paths, of which the
    identifier, the type and the location are stored lower-cased. */
module Bikes {
  import opened Common

  /** The fields a bike document is built from. `uuid` is the `_uuid` path
      and `kind` the `type` path. */
  datatype RawBike = RawBike(
    uuid: Option<string>,
    owner: Option<string>,
    kind: Option<string>,
    location: Option<string>)

  /** A bike document that passed validation. */
  datatype Bike = Bike(uuid: string, owner: string, kind: string, location: string)

  /** The violation of each rejected path, `None` for the paths that passed. */
  datatype BikeErrors = BikeErrors(
    uuid: Option<Violation>,
    owner: Option<Violation>,
    kind: Option<Violation>,
    location: Option<Violation>)
  {
    predicate Clean() {
      uuid.None? && owner.None? && kind.None? && location.None?
    }
  }

  /** Builds (lowercase setters) and validates (required) a bike document. */
  function Validate(raw: RawBike): (r: Result<Bike, BikeErrors>)
    ensures r.Success? <==>
      Present(raw.uuid) && Present(raw.owner) && Present(raw.kind) && Present(raw.location)
    ensures r.Success? ==>
      && r.value.uuid == Lower(raw.uuid.value)
      && r.value.owner == raw.owner.value
      && r.value.kind == Lower(raw.kind.value)
      && r.value.location == Lower(raw.location.value)
    ensures r.Success? ==> NoUpper(r.value.uuid) && NoUpper(r.value.kind) && NoUpper(r.value.location)
    ensures r.Failure? ==>
      && !r.error.Clean()
      && (r.error.uuid == if Present(raw.uuid) then None else Some(Required))
      && (r.error.owner == if Present(raw.owner) then None else Some(Required))
      && (r.error.kind == if Present(raw.kind) then None else Some(Required))
      && (r.error.location == if Present(raw.location) then None else Some(Required))
  {
    var uuid := LowerOpt(raw.uuid);
    var kind := LowerOpt(raw.kind);
    var location := LowerOpt(raw.location);
    var errs := BikeErrors(
      RequireString(uuid), RequireString(raw.owner), RequireString(kind), RequireString(location));
    if errs.Clean() then
      Success(Bike(uuid.value, raw.owner.value, kind.value, location.value))
    else
      Failure(errs)
  }

  /** The document a stored bike reads back as. */
  function AsRaw(b: Bike): RawBike {
    RawBike(Some(b.uuid), Some(b.owner), Some(b.kind), Some(b.location))
  }

  /** Normalising and validating a stored bike again changes nothing: its
      lower-cased paths hold no upper-case letter. */
  lemma RevalidateStored(raw: RawBike, b: Bike)
    requires Validate(raw) == Success(b)
    ensures Validate(AsRaw(b)) == Success(b)
  {
    LowerKeepsLower(b.uuid);
    LowerKeepsLower(b.kind);
    LowerKeepsLower(b.location);
  }
}

=== FILE: bookings.dfy ===
/** The `bookings` collection's schema: the booking's user (an object id),
    denormalised copies of the bike's identifier, owner, type and location,
    a price, a start and an end time, and a status drawn from a fixed set
    that defaults to pending. */
module Bookings {
  import opened Common

  datatype Status = Pending | Approved | Rejected

  /** The enum's spelling of each status. */
  function StatusName(s: Status): string {
    match s
    case Pending => "pending"
    case Approved => "approved"
    case Rejected => "rejected"
  }

  /** The status a string names, if it is one of the enum's values. */
  function ParseStatus(name: string): (r: Option<Status>)
    ensures r.Some? ==> StatusName(r.value) == name
    ensures r.None? <==> name !in {"pending", "approved", "rejected"}
  {
    if name == "pending" then Some(Pending)
    else if name == "approved" then Some(Approved)
    else if name == "rejected" then Some(Rejected)
    else None
  }

  /** The fields a booking document is built from. Numbers and dates are
      kept as integers: validation only asks whether they are present. */
  datatype RawBooking = RawBooking(
    user: Option<nat>,
    bikeId: Option<string>,
    bikeOwner: Option<string>,
    bikeType: Option<string>,
    bikeLocation: Option<string>,
    price: Option<int>,
    startTime: Option<int>,
    endTime: Option<int>,
    status: Option<string>)

  datatype Booking = Booking(
    user: nat,
    bikeId: string,
    bikeOwner: string,
    bikeType: string,
    bikeLocation: string,
    price: int,
    startTime: int,
    endTime: int,
    status: Status)

  datatype BookingErrors = BookingErrors(
    user: Option<Violation>,
    bikeId: Option<Violation>,
    bikeOwner: Option<Violation>,
    bikeType: Option<Violation>,
    bikeLocation: Option<Violation>,
    price: Option<Violation>,
    startTime: Option<Violation>,
    endTime: Option<Violation>,
    status: Option<Violation>)
  {
    predicate Clean() {
      user.None? && bikeId.None? && bikeOwner.None? && bikeType.None? && bikeLocation.None?
      && price.None? && startTime.None? && endTime.None? && status.None?
    }
  }

  /** The status path: an absent status takes the default; a given one must
      be one of the enum's values. */
  function StatusCheck(v: Option<string>): Option<Violation> {
    if v.Some? && ParseStatus(v.value).None? then Some(NotInEnum) else None
  }

  /** All paths except the status are required. */
  predicate Complete(raw: RawBooking) {
    && raw.user.Some? && Present(raw.bikeId) && Present(raw.bikeOwner)
    && Present(raw.bikeType) && Present(raw.bikeLocation)
    && raw.price.Some? && raw.startTime.Some? && raw.endTime.Some?
  }

  /** Builds and validates a booking document. Accepted exactly when the
      eight required paths are present and the status, if given, is one of
      pending, approved, rejected; an absent status is stored as pending.
      Nothing relates the start and end times, and the bike identifier is a
      free string. String paths are stored as given (no lowercase setter). */
  function Validate(raw: RawBooking): (r: Result<Booking, BookingErrors>)
    ensures r.Success? <==>
      Complete(raw) && (raw.status.None? || raw.status.value in {"pending", "approved", "rejected"})
    ensures r.Success? ==>
      && r.value.user == raw.user.value
      && r.value.bikeId == raw.bikeId.value
      && r.value.bikeOwner == raw.bikeOwner.value
      && r.value.bikeType == raw.bikeType.value
      && r.value.bikeLocation == raw.bikeLocation.value
      && r.value.price == raw.price.value
      && r.value.startTime == raw.startTime.value
      && r.value.endTime == raw.endTime.value
      && (raw.status.None? ==> r.value.status == Pending)
      && (raw.status.Some? ==> StatusName(r.value.status) == raw.status.value)
    ensures r.Failure? ==>
      && !r.error.Clean()
      && (r.error.user.Some? <==> raw.user.None?)
      && (r.error.bikeId.Some? <==> !Present(raw.bikeId))
      && (r.error.bikeOwner.Some? <==> !Present(raw.bikeOwner))
      && (r.error.bikeType.Some? <==> !Present(raw.bikeType))
      && (r.error.bikeLocation.Some? <==> !Present(raw.bikeLocation))
      && (r.error.price.Some? <==> raw.price.None?)
      && (r.error.startTime.Some? <==> raw.startTime.None?)
      && (r.error.endTime.Some? <==> raw.endTime.None?)
    ensures r.Failure? ==>
      && (r.error.user.Some? ==> r.error.user == Some(Required))
      && (r.error.bikeId.Some? ==> r.error.bikeId == Some(Required))
      && (r.error.bikeOwner.Some? ==> r.error.bikeOwner == Some(Required))
      && (r.error.bikeType.Some? ==> r.error.bikeType == Some(Required))
      && (r.error.bikeLocation.Some? ==> r.error.bikeLocation == Some(Required))
      && (r.error.price.Some? ==> r.error.price == Some(Required))
      && (r.error.startTime.Some? ==> r.error.startTime == Some(Required))
      && (r.error.endTime.Some? ==> r.error.endTime == Some(Required))
    ensures r.Failure? ==>
      && (r.error.status.Some? <==> raw.status.Some? && raw.status.value !in {"pending", "approved", "rejected"})
      && (r.error.status.Some? ==> r.error.status.value == NotInEnum)
  {
    var errs := BookingErrors(
      RequireValue(raw.user), RequireString(raw.bikeId), RequireString(raw.bikeOwner),
      RequireString(raw.bikeType), RequireString(raw.bikeLocation), RequireValue(raw.price),
      RequireValue(raw.startTime), RequireValue(raw.endTime), StatusCheck(raw.status));
    if errs.Clean() then
      var status := if raw.status.Some? then ParseStatus(raw.status.value).value else Pending;
      Success(Booking(raw.user.value, raw.bikeId.value, raw.bikeOwner.value, raw.bikeType.value,
                      raw.bikeLocation.value, raw.price.value, raw.startTime.value, raw.endTime.value, status))
    else
      Failure(errs)
  }

  /** The document a stored booking reads back as. */
  function AsRaw(b: Booking): RawBooking {
    RawBooking(Some(b.user), Some(b.bikeId), Some(b.bikeOwner), Some(b.bikeType), Some(b.bikeLocation),
               Some(b.price), Some(b.startTime), Some(b.endTime), Some(StatusName(b.status)))
  }

  /** Validating a stored booking again accepts it and changes nothing,
      the status included. */
  lemma RevalidateStored(raw: RawBooking, b: Booking)
    requires Validate(raw) == Success(b)
    ensures Validate(AsRaw(b)) == Success(b)
  {
    assert ParseStatus(StatusName(b.status)) == Some(b.status) by {
      match b.status
      case Pending =>
      case Approved =>
      case Rejected =>
    }
  }
}

=== FILE: common.dfy ===
/** Shared vocabulary of the model: optional values, results, the validation
    errors the document mapper reports, and the ASCII character classes and
    lower-casing that the record schemas use. */
module Common {

  /** A field of a request body or a document that may be absent
      (`undefined` in the JavaScript source). */
  datatype Option<+T> = None | Some(value: T) {

    /** The value, or `default` when absent: how a schema default is applied. */
    function GetOr(default: T): T {
      match this
      case Some(v) => v
      case None => default
    }
  }

  datatype Result<+T, +E> = Success(value: T) | Failure(error: E)

  /** The first validator of one document path that rejected the path's value. */
  datatype Violation =
    | Required            // absent, or (for a string path) the empty string
    | TooShort(minLength: nat)  // `minlength`
    | BadFormat           // a custom `validate` function (a regular expression) said no
    | NotInEnum           // `enum`
    | BelowMin(least: real) // `min`
    | AboveMax(most: real) // `max`

  /** A string path's `required` validator passes: present and not empty. */
  predicate Present(v: Option<string>) {
    v.Some? && |v.value| > 0
  }

  /** The `required` validator of a string path. */
  function RequireString(v: Option<string>): (r: Option<Violation>)
    ensures r.None? <==> Present(v)
    ensures r.Some? ==> r.value == Required
  {
    if Present(v) then None else Some(Required)
  }

  /** The `required` validator of a number, date, object-id or boolean path:
      only an absent value fails it. */
  function RequireValue<T>(v: Option<T>): (r: Option<Violation>)
    ensures r.None? <==> v.Some?
    ensures r.Some? ==> r.value == Required
  {
    if v.Some? then None else Some(Required)
  }

  predicate All(s: string, p: char -> bool) {
    forall i :: 0 <= i < |s| ==> p(s[i])
  }

  predicate IsUpper(c: char) { 'A' <= c <= 'Z' }

  predicate IsAsciiLetter(c: char) { 'a' <= c <= 'z' || 'A' <= c <= 'Z' }

  predicate IsDigit(c: char) { '0' <= c <= '9' }

  /** `toLowerCase` on one character, restricted to ASCII. */
  function LowerChar(c: char): (d: char)
    ensures !IsUpper(d)
    ensures IsUpper(c) ==> 'a' <= d <= 'z' && d as int - 'a' as int == c as int - 'A' as int
    ensures IsAsciiLetter(c) <==> IsAsciiLetter(d)
    ensures IsDigit(c) <==> IsDigit(d)
    ensures !IsUpper(c) ==> d == c
  {
    if IsUpper(c) then (c as int + 32) as char else c
  }

  predicate NoUpper(s: string) {
    forall i :: 0 <= i < |s| ==> !IsUpper(s[i])
  }

  /** `toLowerCase` on a string: what a path declared `lowercase: true` stores. */
  function Lower(s: string): (t: string)
    ensures |t| == |s|
    ensures NoUpper(t)
    ensures forall i :: 0 <= i < |s| ==> t[i] == LowerChar(s[i])
  {
    seq(|s|, i requires 0 <= i < |s| => LowerChar(s[i]))
  }

  /** A string with no upper-case letter is left as it is by `Lower`. */
  lemma LowerKeepsLower(s: string)
    requires NoUpper(s)
    ensures Lower(s) == s
  {
  }

  /** Lower-casing twice is lower-casing once. */
  lemma LowerIdempotent(s: string)
    ensures Lower(Lower(s)) == Lower(s)
  {
    LowerKeepsLower(Lower(s));
  }

  /** The lowercase setter: applied to a present value, absent stays absent. */
  function LowerOpt(v: Option<string>): (r: Option<string>)
    ensures r.Some? <==> v.Some?
    ensures v.Some? ==> r.value == Lower(v.value)
    ensures Present(r) <==> Present(v)
  {
    match v
    case Some(s) => Some(Lower(s))
    case None => None
  }
}

=== FILE: email.dfy ===
/** The e-mail address pattern of the user schema,
    `^[a-zA-Z0-9._%+-]+@[a-zA-Z0-9.-]+\.[a-zA-Z]{2,}$`,
    once as the regular expression means it (some split of the address into
    local part, '@', domain, '.', top-level domain exists) and once as a
    deterministic check with no backtracking, proved to agree. */
module Email {
  import opened Common
  import opened Seqs

  /** `[a-zA-Z0-9._%+-]` */
  predicate IsLocalChar(c: char) {
    IsAsciiLetter(c) || IsDigit(c) || c == '.' || c == '_' || c == '%' || c == '+' || c == '-'
  }

  /** `[a-zA-Z0-9.-]` */
  predicate IsDomainChar(c: char) {
    IsAsciiLetter(c) || IsDigit(c) || c == '.' || c == '-'
  }

  /** `s` matches the pattern with its '@' at `at` and the '.' before the
      top-level domain at `dot`. */
  ghost predicate SplitsAt(s: string, at: int, dot: int) {
    && 0 < at && at + 1 < dot && dot + 3 <= |s|
    && s[at] == '@' && s[dot] == '.'
    && All(s[..at], IsLocalChar)
    && All(s[at + 1..dot], IsDomainChar)
    && All(s[dot + 1..], IsAsciiLetter)
  }

  /** The regular expression's meaning: some choice of the two split points works. */
  ghost predicate MatchesPattern(s: string) {
    exists at, dot :: SplitsAt(s, at, dot)
  }

  predicate IsAt(c: char) { c == '@' }

  predicate IsDot(c: char) { c == '.' }

  /** The part after the '@': domain characters only, with a last '.' that
      has something before it and at least two letters after it. */
  function DomainOk(domain: string): bool {
    && All(domain, IsDomainChar)
    && match LastWhere(domain, IsDot)
       case None => false
       case Some(k) => 0 < k && k + 3 <= |domain| && All(domain[k + 1..], IsAsciiLetter)
  }

  /** The deterministic check: the '@' can only be the first one (the local
      part has none), and the '.' can only be the last one (the top-level
      domain has none). */
  function IsEmail(s: string): bool {
    match FirstWhere(s, IsAt)
    case None => false
    case Some(at) => 0 < at && All(s[..at], IsLocalChar) && DomainOk(s[at + 1..])
  }

  /** What the deterministic check accepts, the pattern matches. */
  lemma IsEmailSound(s: string)
    requires IsEmail(s)
    ensures MatchesPattern(s)
  {
    var at := FirstWhere(s, IsAt).value;
    var domain := s[at + 1..];
    var k := LastWhere(domain, IsDot).value;
    var dot := at + 1 + k;
    assert s[at + 1..dot] == domain[..k];
    assert s[dot + 1..] == domain[k + 1..];
    assert SplitsAt(s, at, dot);
  }

  /** What the pattern matches, the deterministic check accepts. */
  lemma IsEmailComplete(s: string)
    requires MatchesPattern(s)
    ensures IsEmail(s)
  {
    var at, dot :| SplitsAt(s, at, dot);
    FirstAtIs(s, at);
    var domain := s[at + 1..];
    var k := dot - at - 1;
    assert domain[..k] == s[at + 1..dot];
    assert domain[k + 1..] == s[dot + 1..];
    DomainSplit(domain, k);
    LastDotIs(domain, k);
    assert DomainOk(domain);
  }

  /** The domain part is the middle part, the '.', and the top-level domain. */
  lemma DomainSplit(domain: string, k: int)
    requires 0 <= k < |domain| && domain[k] == '.'
    requires All(domain[..k], IsDomainChar)
    requires All(domain[k + 1..], IsAsciiLetter)
    ensures All(domain, IsDomainChar)
  {
    forall j | 0 <= j < |domain|
      ensures IsDomainChar(domain[j])
    {
      if j < k {
        assert domain[..k][j] == domain[j];
      } else if k < j {
        assert domain[k + 1..][j - k - 1] == domain[j];
      }
    }
  }

  /** The '.' before a top-level domain of letters is the last '.'. */
  lemma LastDotIs(domain: string, k: int)
    requires 0 <= k < |domain| && domain[k] == '.'
    requires All(domain[k + 1..], IsAsciiLetter)
    ensures LastWhere(domain, IsDot) == Some(k)
  {
    forall j | k < j < |domain|
      ensures domain[j] != '.'
    {
      assert domain[k + 1..][j - k - 1] == domain[j];
    }
  }

  /** A split's '@' is the first '@' of the address. */
  lemma FirstAtIs(s: string, at: int)
    requires 0 <= at < |s| && s[at] == '@'
    requires All(s[..at], IsLocalChar)
    ensures FirstWhere(s, IsAt) == Some(at)
  {
    forall j | 0 <= j < at
      ensures s[j] != '@'
    {
      assert s[..at][j] == s[j];
    }
  }

  /** The deterministic check accepts exactly the addresses the pattern matches. */
  lemma IsEmailCorrect(s: string)
    ensures IsEmail(s) <==> MatchesPattern(s)
  {
    if IsEmail(s) {
      IsEmailSound(s);
    }
    if MatchesPattern(s) {
      IsEmailComplete(s);
    }
  }

  /** Every matching address has at least six characters ("a@b.cd"), so the
      schema's five-character minimum never rejects an address the pattern
      would accept. */
  lemma PatternImpliesLength(s: string)
    requires MatchesPattern(s)
    ensures |s| >= 6
  {
    var at, dot :| SplitsAt(s, at, dot);
  }

  /** Lower-casing a slice is slicing the lower-cased string. */
  lemma LowerSlice(s: string, a: int, b: int)
    requires 0 <= a <= b <= |s|
    ensures Lower(s)[a..b] == Lower(s[a..b])
  {
  }

  /** Lower-casing keeps a matching address matching, at the same split points. */
  lemma LowerKeepsMatch(s: string)
    requires MatchesPattern(s)
    ensures MatchesPattern(Lower(s))
  {
    var at, dot :| SplitsAt(s, at, dot);
    var t := Lower(s);
    LowerSlice(s, 0, at);
    LowerSlice(s, at + 1, dot);
    LowerSlice(s, dot + 1, |s|);
    assert t[..at] == t[0..at] && s[..at] == s[0..at];
    assert t[dot + 1..] == t[dot + 1..|t|] && s[dot + 1..] == s[dot + 1..|s|];
    assert SplitsAt(t, at, dot);
  }
}

=== FILE: reviews.dfy ===
/** The `reviews` collection's schema: four required paths and a rating
    bounded by 1 and 5, both inclusive. */
module Reviews {
  import opened Common

  const MinRating: real := 1.0
  const MaxRating: real := 5.0

  /** The fields a review document is built from. `user` and `bikeId` are
      object ids of a user and a bike document; the rating is a number. */
  datatype RawReview = RawReview(
    user: Option<nat>,
    bikeId: Option<nat>,
    rating: Option<real>,
    comment: Option<string>)

  datatype Review = Review(user: nat, bikeId: nat, rating: real, comment: string)

  datatype ReviewErrors = ReviewErrors(
    user: Option<Violation>,
    bikeId: Option<Violation>,
    rating: Option<Violation>,
    comment: Option<Violation>)
  {
    predicate Clean() {
      user.None? && bikeId.None? && rating.None? && comment.None?
    }
  }

  /** The rating path's validators in their order: required, min, max. */
  function RatingCheck(v: Option<real>): Option<Violation> {
    if v.None? then Some(Required)
    else if v.value < MinRating then Some(BelowMin(MinRating))
    else if v.value > MaxRating then Some(AboveMax(MaxRating))
    else None
  }

  /** Validates a review document. Accepted exactly when every path is
      present and the rating lies in [1, 5]; the stored review holds the
      given values unchanged. */
  function Validate(raw: RawReview): (r: Result<Review, ReviewErrors>)
    ensures r.Success? <==>
      raw.user.Some? && raw.bikeId.Some? && Present(raw.comment)
      && raw.rating.Some? && MinRating <= raw.rating.value <= MaxRating
    ensures r.Success? ==>
      r.value == Review(raw.user.value, raw.bikeId.value, raw.rating.value, raw.comment.value)
    ensures r.Failure? ==>
      && !r.error.Clean()
      && (r.error.user.Some? <==> raw.user.None?)
      && (r.error.bikeId.Some? <==> raw.bikeId.None?)
      && (r.error.comment.Some? <==> !Present(raw.comment))
      && (r.error.user.Some? ==> r.error.user == Some(Required))
      && (r.error.bikeId.Some? ==> r.error.bikeId == Some(Required))
      && (r.error.comment.Some? ==> r.error.comment == Some(Required))
      && (raw.rating.None? ==> r.error.rating == Some(Required))
      && (raw.rating.Some? && raw.rating.value < MinRating ==> r.error.rating == Some(BelowMin(MinRating)))
      && (raw.rating.Some? && raw.rating.value > MaxRating ==> r.error.rating == Some(AboveMax(MaxRating)))
  {
    var errs := ReviewErrors(
      RequireValue(raw.user), RequireValue(raw.bikeId), RatingCheck(raw.rating), RequireString(raw.comment));
    if errs.Clean() then
      Success(Review(raw.user.value, raw.bikeId.value, raw.rating.value, raw.comment.value))
    else
      Failure(errs)
  }

  /** Both bounds are inclusive: a rating of 1 and a rating of 5 are accepted. */
  lemma BoundsAccepted(user: nat, bikeId: nat, comment: string)
    requires |comment| > 0
    ensures Validate(RawReview(Some(user), Some(bikeId), Some(MinRating), Some(comment))).Success?
    ensures Validate(RawReview(Some(user), Some(bikeId), Some(MaxRating), Some(comment))).Success?
  {
  }

  /** The document a stored review reads back as. */
  function AsRaw(v: Review): RawReview {
    RawReview(Some(v.user), Some(v.bikeId), Some(v.rating), Some(v.comment))
  }

  /** Validating a stored review again accepts it and changes nothing. */
  lemma RevalidateStored(raw: RawReview, v: Review)
    requires Validate(raw) == Success(v)
    ensures Validate(AsRaw(v)) == Success(v)
  {
  }
}

=== FILE: seqs.dfy ===
/** Searches over the collections of the store: `findOne` returns the first
    document in natural order that matches, `find` every matching document. */
module Seqs {
  import opened Common

  /** Index of the first element satisfying `p`, if any. */
  function FirstWhere<T>(s: seq<T>, p: T -> bool): (r: Option<nat>)
    ensures r.Some? ==> r.value < |s| && p(s[r.value])
    ensures r.Some? ==> forall j :: 0 <= j < r.value ==> !p(s[j])
    ensures r.None? <==> forall j :: 0 <= j < |s| ==> !p(s[j])
  {
    if |s| == 0 then None
    else if p(s[0]) then Some(0)
    else
      match FirstWhere(s[1..], p)
      case None => None
      case Some(k) => Some(k + 1)
  }

  /** Index of the last element satisfying `p`, if any. */
  function LastWhere<T>(s: seq<T>, p: T -> bool): (r: Option<nat>)
    ensures r.Some? ==> r.value < |s| && p(s[r.value])
    ensures r.Some? ==> forall j :: r.value < j < |s| ==> !p(s[j])
    ensures r.None? <==> forall j :: 0 <= j < |s| ==> !p(s[j])
  {
    if |s| == 0 then None
    else if p(s[|s| - 1]) then Some(|s| - 1)
    else LastWhere(s[..|s| - 1], p)
  }

  /** The elements satisfying `p`, in their original order: each one as
      often as it occurs in `s`, and nothing else. */
  function Filter<T(!new)>(s: seq<T>, p: T -> bool): (r: seq<T>)
    ensures |r| <= |s|
    ensures forall x :: x in r <==> x in s && p(x)
    ensures forall x :: multiset(r)[x] == if p(x) then multiset(s)[x] else 0
  {
    if |s| == 0 then []
    else
      assert s == [s[0]] + s[1..];
      if p(s[0]) then [s[0]] + Filter(s[1..], p)
      else Filter(s[1..], p)
  }

  /** Filtering keeps the order: filtering a concatenation concatenates the
      filtered parts. */
  lemma {:induction false} FilterAppend<T(!new)>(s: seq<T>, t: seq<T>, p: T -> bool)
    ensures Filter(s + t, p) == Filter(s, p) + Filter(t, p)
  {
    if |s| == 0 {
      assert s + t == t;
    } else {
      assert (s + t)[1..] == s[1..] + t;
      FilterAppend(s[1..], t, p);
    }
  }
}

=== FILE: store.dfy ===
/** The three collections the handlers read and write, held as one immutable
    value. Documents keep their insertion order, which the model takes as
    the order the lookups see. Object ids come from a counter. */
module Store {
  import opened Common
  import opened Seqs
  import Users
  import Bikes
  import Bookings

  /** A stored document: its object id and its validated contents. */
  datatype Doc<T> = Doc(id: nat, body: T)

  datatype Store = Store(
    users: seq<Doc<Users.User>>,
    bikes: seq<Doc<Bikes.Bike>>,
    bookings: seq<Doc<Bookings.Booking>>,
    nextId: nat)

  /** The empty database. */
  const Empty: Store := Store([], [], [], 0)

  /** Every id in `docs` was issued before `next`, and no two documents share one. */
  predicate IdsIssued<T>(docs: seq<Doc<T>>, next: nat) {
    && (forall i :: 0 <= i < |docs| ==> docs[i].id < next)
    && (forall i, j :: 0 <= i < j < |docs| ==> docs[i].id != docs[j].id)
  }

  /** The unique index on the users' e-mail path. */
  predicate UniqueEmails(users: seq<Doc<Users.User>>) {
    forall i, j :: 0 <= i < j < |users| ==> users[i].body.email != users[j].body.email
  }

  /** No two bikes share an identifier. Nothing in the database enforces
      this; the booking handler keeps it by looking before it inserts. */
  predicate UniqueUuids(bikes: seq<Doc<Bikes.Bike>>) {
    forall i, j :: 0 <= i < j < |bikes| ==> bikes[i].body.uuid != bikes[j].body.uuid
  }

  /** The invariant the handlers maintain. */
  predicate Wf(st: Store) {
    && IdsIssued(st.users, st.nextId)
    && IdsIssued(st.bikes, st.nextId)
    && IdsIssued(st.bookings, st.nextId)
    && UniqueEmails(st.users)
    && UniqueUuids(st.bikes)
  }

  lemma EmptyWf()
    ensures Wf(Empty)
  {
  }

  /** Appending a user with a fresh id and an unused e-mail keeps the invariant. */
  lemma AddUserKeepsWf(st: Store, d: Doc<Users.User>)
    requires Wf(st)
    requires d.id == st.nextId
    requires forall i :: 0 <= i < |st.users| ==> st.users[i].body.email != d.body.email
    ensures Wf(st.(users := st.users + [d], nextId := st.nextId + 1))
  {
  }

  /** Appending a bike with a fresh id and an unused identifier keeps the invariant. */
  lemma AddBikeKeepsWf(st: Store, d: Doc<Bikes.Bike>)
    requires Wf(st)
    requires d.id == st.nextId
    requires forall i :: 0 <= i < |st.bikes| ==> st.bikes[i].body.uuid != d.body.uuid
    ensures Wf(st.(bikes := st.bikes + [d], nextId := st.nextId + 1))
  {
  }

  /** Appending a booking with a fresh id keeps the invariant. */
  lemma AddBookingKeepsWf(st: Store, d: Doc<Bookings.Booking>)
    requires Wf(st)
    requires d.id == st.nextId
    ensures Wf(st.(bookings := st.bookings + [d], nextId := st.nextId + 1))
  {
  }

  /** `User.findOne({ email })`: the position of the first user with that e-mail. */
  function FindUser(users: seq<Doc<Users.User>>, email: string): (r: Option<nat>)
    ensures r.Some? ==> r.value < |users| && users[r.value].body.email == email
    ensures r.Some? ==> forall j :: 0 <= j < r.value ==> users[j].body.email != email
    ensures r.None? <==> forall j :: 0 <= j < |users| ==> users[j].body.email != email
  {
    FirstWhere(users, (d: Doc<Users.User>) => d.body.email == email)
  }

  /** `Bike.findOne({ _uuid })`: the position of the first bike with that identifier. */
  function FindBike(bikes: seq<Doc<Bikes.Bike>>, uuid: string): (r: Option<nat>)
    ensures r.Some? ==> r.value < |bikes| && bikes[r.value].body.uuid == uuid
    ensures r.Some? ==> forall j :: 0 <= j < r.value ==> bikes[j].body.uuid != uuid
    ensures r.None? <==> forall j :: 0 <= j < |bikes| ==> bikes[j].body.uuid != uuid
  {
    FirstWhere(bikes, (d: Doc<Bikes.Bike>) => d.body.uuid == uuid)
  }

  /** `Booking.findOne({ _id })`: the position of the booking with that id. */
  function FindBooking(bookings: seq<Doc<Bookings.Booking>>, id: nat): (r: Option<nat>)
    ensures r.Some? ==> r.value < |bookings| && bookings[r.value].id == id
    ensures r.Some? ==> forall j :: 0 <= j < r.value ==> bookings[j].id != id
    ensures r.None? <==> forall j :: 0 <= j < |bookings| ==> bookings[j].id != id
  {
    FirstWhere(bookings, (d: Doc<Bookings.Booking>) => d.id == id)
  }

  /** `Booking.find({ user })`: every booking of one user, in stored order. */
  function BookingsOf(bookings: seq<Doc<Bookings.Booking>>, user: nat): (r: seq<Doc<Bookings.Booking>>)
    ensures forall b :: b in r <==> b in bookings && b.body.user == user
    ensures forall b :: multiset(r)[b] == if b.body.user == user then multiset(bookings)[b] else 0
  {
    Filter(bookings, (d: Doc<Bookings.Booking>) => d.body.user == user)
  }

  /** A booking appended to the collection comes last in its owner's
      listing, after that owner's earlier bookings in their stored order,
      and leaves every other user's listing as it was. */
  lemma BookingsOfAppend(bookings: seq<Doc<Bookings.Booking>>, d: Doc<Bookings.Booking>, user: nat)
    ensures BookingsOf(bookings + [d], user) ==
      BookingsOf(bookings, user) + (if d.body.user == user then [d] else [])
  {
    var p := (x: Doc<Bookings.Booking>) => x.body.user == user;
    FilterAppend(bookings, [d], p);
    assert [d][1..] == [];
  }

  /** With unique e-mails, the user found by e-mail is the only one with it. */
  lemma FoundUserIsUnique(users: seq<Doc<Users.User>>, email: string, k: nat)
    requires UniqueEmails(users)
    requires k < |users| && users[k].body.email == email
    ensures FindUser(users, email) == Some(k)
  {
  }
}

=== FILE: users.dfy ===
/** The `users` collection's schema: which fields are required, which are
    stored lower-cased, the e-mail, password and phone rules, and the
    defaults of the picture URL and the owner flag. */
module Users {
  import opened Common
  import Email

  /** The picture URL stored when the document is built without one. */
  const Placeholder: string := "https://via.placeholder.com/150"

  const EmailMinLength: nat := 5
  const PasswordMinLength: nat := 8

  /** The fields a user document is built from; any of them may be absent. */
  datatype RawUser = RawUser(
    username: Option<string>,
    firstName: Option<string>,
    lastName: Option<string>,
    email: Option<string>,
    password: Option<string>,
    phone: Option<string>,
    idNumber: Option<string>,
    idPic: Option<string>,
    isOwner: Option<bool>)

  /** A user document that passed validation. */
  datatype User = User(
    username: string,
    firstName: string,
    lastName: string,
    email: string,
    password: string,
    phone: string,
    idNumber: string,
    idPic: string,
    isOwner: bool)

  /** The phone pattern `^[0-9]{10}$`. */
  predicate IsPhoneNumber(s: string) {
    |s| == 10 && All(s, IsDigit)
  }

  /** Building the document: the lowercase setters run on the name and
      e-mail fields, the defaults fill an absent picture and owner flag. */
  function Build(raw: RawUser): RawUser {
    raw.(username := LowerOpt(raw.username),
         firstName := LowerOpt(raw.firstName),
         lastName := LowerOpt(raw.lastName),
         email := LowerOpt(raw.email),
         idPic := Some(raw.idPic.GetOr(Placeholder)),
         isOwner := Some(raw.isOwner.GetOr(false)))
  }

  /** The e-mail path's validators in their order: required, minlength, pattern. */
  function EmailCheck(v: Option<string>): Option<Violation> {
    if !Present(v) then Some(Required)
    else if |v.value| < EmailMinLength then Some(TooShort(EmailMinLength))
    else if !Email.IsEmail(v.value) then Some(BadFormat)
    else None
  }

  /** The password path's validators: required, minlength. */
  function PasswordCheck(v: Option<string>): Option<Violation> {
    if !Present(v) then Some(Required)
    else if |v.value| < PasswordMinLength then Some(TooShort(PasswordMinLength))
    else None
  }

  /** The phone path's validators: required, pattern. */
  function PhoneCheck(v: Option<string>): Option<Violation> {
    if !Present(v) then Some(Required)
    else if !IsPhoneNumber(v.value) then Some(BadFormat)
    else None
  }

  /** A validation error of a user document: the violation of each
      rejected path, `None` for the paths that passed. */
  datatype UserErrors = UserErrors(
    username: Option<Violation>,
    firstName: Option<Violation>,
    lastName: Option<Violation>,
    email: Option<Violation>,
    password: Option<Violation>,
    phone: Option<Violation>,
    idNumber: Option<Violation>)
  {
    predicate Clean() {
      username.None? && firstName.None? && lastName.None? && email.None?
      && password.None? && phone.None? && idNumber.None?
    }
  }

  /** Runs every path's validators over a built document. The ID number has
      only `required`; its eight-digit pattern is commented out in the schema. */
  function Check(d: RawUser): UserErrors {
    UserErrors(
      RequireString(d.username),
      RequireString(d.firstName),
      RequireString(d.lastName),
      EmailCheck(d.email),
      PasswordCheck(d.password),
      PhoneCheck(d.phone),
      RequireString(d.idNumber))
  }

  /** The schema's rules on the raw fields: the seven required fields are
      present, the lower-cased e-mail matches the address pattern (so the
      five-character minimum never decides acceptance, only which error a
      short e-mail reports), the password has at
      least eight characters and the phone is ten ASCII digits. */
  ghost predicate Acceptable(raw: RawUser) {
    && Present(raw.username) && Present(raw.firstName) && Present(raw.lastName)
    && raw.email.Some? && Email.MatchesPattern(Lower(raw.email.value))
    && raw.password.Some? && |raw.password.value| >= PasswordMinLength
    && raw.phone.Some? && IsPhoneNumber(raw.phone.value)
    && Present(raw.idNumber)
  }

  /** On the e-mail alone, the two forms of the rules agree. */
  lemma EmailAccepted(v: Option<string>)
    ensures (v.Some? && Email.IsEmail(Lower(v.value))) <==> (v.Some? && Email.MatchesPattern(Lower(v.value)))
  {
    if v.Some? {
      Email.IsEmailCorrect(Lower(v.value));
    }
  }

  /** The same rules, decided with the backtracking-free address check. */
  predicate Accepts(raw: RawUser) {
    && Present(raw.username) && Present(raw.firstName) && Present(raw.lastName)
    && raw.email.Some? && Email.IsEmail(Lower(raw.email.value))
    && raw.password.Some? && |raw.password.value| >= PasswordMinLength
    && raw.phone.Some? && IsPhoneNumber(raw.phone.value)
    && Present(raw.idNumber)
  }

  /** Builds and validates a user document, as saving a new user does:
      accepted exactly when the raw fields meet the schema's rules. */
  function Validate(raw: RawUser): (r: Result<User, UserErrors>)
    ensures r.Success? <==> Acceptable(raw)
    ensures r.Success? ==>
      && r.value.username == Lower(raw.username.value)
      && r.value.firstName == Lower(raw.firstName.value)
      && r.value.lastName == Lower(raw.lastName.value)
      && r.value.email == Lower(raw.email.value)
    ensures r.Success? ==>
      && r.value.password == raw.password.value
      && r.value.phone == raw.phone.value
      && r.value.idNumber == raw.idNumber.value
    ensures r.Success? ==> r.value.idPic == raw.idPic.GetOr(Placeholder)
    ensures r.Success? ==> r.value.isOwner == raw.isOwner.GetOr(false)
  {
    if Accepts(raw) then
      EmailAccepted(raw.email);
      Success(User(Lower(raw.username.value), Lower(raw.firstName.value), Lower(raw.lastName.value),
                   Lower(raw.email.value), raw.password.value, raw.phone.value, raw.idNumber.value,
                   raw.idPic.GetOr(Placeholder), raw.isOwner.GetOr(false)))
    else
      EmailAccepted(raw.email);
      Failure(Check(Build(raw)))
  }

  /** An absent picture is stored as the placeholder URL and an absent
      owner flag as false. */
  lemma Defaults(raw: RawUser)
    requires Validate(raw).Success?
    ensures raw.idPic.None? ==> Validate(raw).value.idPic == "https://via.placeholder.com/150"
    ensures raw.isOwner.None? ==> !Validate(raw).value.isOwner
  {
  }

  /** A built document passes every path exactly when the raw fields meet
      the schema's rules. */
  lemma CleanMeans(raw: RawUser)
    ensures Check(Build(raw)).Clean() <==> Acceptable(raw)
  {
    EmailCheckMeaning(LowerOpt(raw.email));
  }

  /** Which paths a rejected user document names, and with which violation:
      each path is reported exactly when its own rule fails, and the first
      failing validator of the path is the one reported. */
  lemma WhyRejected(raw: RawUser)
    requires Validate(raw).Failure?
    ensures var e := Validate(raw).error;
      && !e.Clean()
      && (e.username.Some? <==> !Present(raw.username))
      && (e.firstName.Some? <==> !Present(raw.firstName))
      && (e.lastName.Some? <==> !Present(raw.lastName))
      && (e.idNumber.Some? <==> !Present(raw.idNumber))
      && (e.email.Some? <==> !(raw.email.Some? && Email.MatchesPattern(Lower(raw.email.value))))
      && (e.password.Some? <==> !(raw.password.Some? && |raw.password.value| >= PasswordMinLength))
      && (e.phone.Some? <==> !(raw.phone.Some? && IsPhoneNumber(raw.phone.value)))
    ensures var e := Validate(raw).error;
      && (!Present(raw.username) ==> e.username == Some(Required))
      && (!Present(raw.firstName) ==> e.firstName == Some(Required))
      && (!Present(raw.lastName) ==> e.lastName == Some(Required))
      && (!Present(raw.idNumber) ==> e.idNumber == Some(Required))
      && (!Present(raw.phone) ==> e.phone == Some(Required))
      && (Present(raw.phone) && !IsPhoneNumber(raw.phone.value) ==> e.phone == Some(BadFormat))
      && (!Present(raw.password) ==> e.password == Some(Required))
      && (raw.password.Some? && 0 < |raw.password.value| < PasswordMinLength ==> e.password == Some(TooShort(PasswordMinLength)))
    ensures var e := Validate(raw).error;
      && (!Present(raw.email) ==> e.email == Some(Required))
      && (raw.email.Some? && 0 < |raw.email.value| < EmailMinLength ==> e.email == Some(TooShort(EmailMinLength)))
      && (raw.email.Some? && |raw.email.value| >= EmailMinLength && !Email.MatchesPattern(Lower(raw.email.value))
          ==> e.email == Some(BadFormat))
  {
    var d := Build(raw);
    EmailCheckMeaning(d.email);
    if raw.email.Some? {
      Email.IsEmailCorrect(Lower(raw.email.value));
    }
    assert Validate(raw).error == Check(d);
  }

  /** The e-mail path passes exactly when the value matches the pattern. */
  lemma EmailCheckMeaning(v: Option<string>)
    ensures EmailCheck(v).None? <==> v.Some? && Email.MatchesPattern(v.value)
  {
    if v.Some? {
      Email.IsEmailCorrect(v.value);
      if Email.MatchesPattern(v.value) {
        Email.PatternImpliesLength(v.value);
      }
    }
  }

  /** The document a stored user reads back as. */
  function AsRaw(u: User): RawUser {
    RawUser(Some(u.username), Some(u.firstName), Some(u.lastName), Some(u.email),
            Some(u.password), Some(u.phone), Some(u.idNumber), Some(u.idPic), Some(u.isOwner))
  }

  /** Validating a stored user again accepts it and changes nothing:
      normalisation and defaults are idempotent. */
  lemma RevalidateStored(raw: RawUser)
    requires Accepts(raw)
    ensures Validate(raw).Success? && Validate(AsRaw(Validate(raw).value)) == Validate(raw)
  {
    EmailAccepted(raw.email);
    LowerIdempotent(raw.username.value);
    LowerIdempotent(raw.firstName.value);
    LowerIdempotent(raw.lastName.value);
    LowerIdempotent(raw.email.value);
    Email.LowerKeepsMatch(Lower(raw.email.value));
  }
}
